=== FILE: README.md ===
# GDP-per-capita dashboard: the data pipeline

This project models the data pipeline of a small dashboard in `app.py`. The
dashboard plots GDP per capita by country and year from a CSV file. The
pipeline does five things:

1. It reshapes the wide table into a long table with `pd.melt`. The wide
   table has a `country` column and one column per year. The long table has
   one `(country, year, gdpPercap)` record per cell.
2. It computes `min_year` and `max_year` from the long table's `year` column.
3. It coerces `gdpPercap` to numbers. A cell that does not parse becomes
   missing (NaN).
4. It builds the axis ticks and slider marks once, as Python `range`s.
5. On every dropdown or slider change, `update_graph` filters the long table
   by the selected countries and year range. It then sorts the result by
   `(year, gdpPercap)`.

Year labels are CSV column headers, so they are strings. The model keeps them
as strings. Python's string order is `Labels.LexLe`, `int(label)` is
`Labels.ParseInt` and `str(n)` is `Labels.Show`. String order agrees with
numeric order only for numerals of the same width. `Labels.LexLeAgreesWithValue`
proves that agreement, and `Query.FilterAgreesWithNumeric` lifts it to the
filter.

Modules, one per pipeline stage:
- `Wrappers`: `Option` and `Result`.
- `Arith`: small multiplication and division facts.
- `Labels`: year labels.
- `Table`: wide and long records, and the start-up errors.
- `Reshape`: melt and coercion.
- `Bounds`: year bounds.
- `Ticks`: ranges, ticks and slider marks.
- `Query`: filter and sort.
- `Dashboard`: the start-up configuration and `update_graph`.

Two behaviours of the code differ from what a reader expecting numeric years would assume. The model follows the code in both:
- **Year comparison.** The filter compares years as strings against `str(lo)`
  and `str(hi)`; it does not compare numbers. With labels "9" and "10" and the
  range 9..10 it selects nothing (`Query.FilterMixedWidths`). For the same
  labels, `min_year` and `max_year` come out as 10 and 9
  (`Bounds.YearBoundsMixedWidths`).
- **Top y tick.** The y ticks end below `int(max) + 1000`, because `range`
  excludes its stop and `int` truncates. For a largest value of 50000 the top
  tick is 50000, not 51000 (`Ticks.YTicksTopTick`).

## Model

| member | source | states |
|---|---|---|
| Labels.ParseInt | app.py:16-17 | `int(label)` succeeds exactly on non-empty digit strings, with a value below 10^width |
| Labels.Show | app.py:81-82 | `str(n)` of a non-negative year is a canonical numeral (no sign, no leading zero); a negative one starts with `-` |
| Labels.LexLeAgreesWithValue | app.py:81-82 | for digit strings of equal length, string order `a <= b` holds exactly when `int(a) <= int(b)` |
| Labels.ShowLeAgreesWithValue | app.py:81-82 | `year >= str(lo)` and `year <= str(hi)` mean `int(year) >= lo` and `int(year) <= hi` when `str(lo)`/`str(hi)` have the label's width |
| Labels.ParseIntOfShow | app.py:16-17 | round-trip partner of `int(label)` here and `str(lo)`/`str(hi)` at app.py:81-82: `int(str(n)) == n` for every non-negative year |
| Labels.ShowOfValue | app.py:16-17 | `str(int(label)) == label` for a canonical numeral label |
| Labels.ShowInjective | app.py:55 | distinct years print differently, so no two slider marks share a key |
| Labels.LexLeIsLexicographic | app.py:81-82 | Python's string comparison holds exactly when the left label is a prefix of the right one, or has the smaller code point at the first index where they differ |
| Labels.LexLeTransitive | app.py:85 | string order on year labels is transitive (with `LexLeTotal`, `LexLeAntisymmetric`: a total order) |
| Reshape.Melt | app.py:15 | the long table has `rows × year columns` records; record `k` is row `k % rows`, column `k / rows`, carrying that cell unchanged |
| Reshape.MeltComplete | app.py:15 | every `(row, year column)` cell appears in the long table with its country, label and cell |
| Reshape.MeltPairsUnique | app.py:15 | with distinct countries and headers, no `(country, year)` pair occurs twice |
| Reshape.CoerceCell | app.py:18 | `to_numeric(errors='coerce')` on one cell: a number passes unchanged, a blank is missing, a text cell is a number exactly when the parser accepts it, and then it is the parsed number |
| Reshape.Coerce | app.py:18 | coercion never fails, keeps length, country and year of every record, and gives each value a number or missing |
| Reshape.CoerceIdempotent | app.py:18 | coercing already-coerced values changes nothing |
| Bounds.LexMin | app.py:16 | `Series.min` of the labels is a label of the table and is below every label in string order |
| Bounds.LexMax | app.py:17 | `Series.max` of the labels is a label of the table and is above every label in string order |
| Bounds.YearBounds | app.py:16-17 | an empty table raises; when the least label in string order is not a numeral the error names that label, since `min()` runs first; any error names a label of the table that is least or greatest and is not a numeral; on success both bounds are `int` of attained least and greatest labels |
| Bounds.YearBoundsLeastFailsFirst | app.py:16-17 | whenever a least label fails `int`, start-up raises on that label, whatever the greatest label is |
| Bounds.YearBoundsOkIff | app.py:16-17 | the bounds exist exactly when the table has records and every least or greatest label in string order is a numeral |
| Bounds.YearBoundsEnclose | app.py:16-17 | for year labels that are numerals (ASCII digit strings) of one width, the bounds exist and `min_year <= int(y) <= max_year` for every year label `y` |
| Bounds.YearBoundsMixedWidths | app.py:16-17 | for labels "9" and "10" the string extremes give `min_year = 10`, `max_year = 9` |
| Ticks.Range | app.py:21 | `range(start, stop, step)` is empty iff `start >= stop`; element `i` is `start + i*step`, all `< stop`, the last `>= stop - step` |
| Ticks.RangeMembership | app.py:55 | `y` is in the range iff `start <= y < stop` and `y - start` is a multiple of the step |
| Ticks.Trunc | app.py:20 | `int(x)` on a float truncates toward zero |
| Ticks.MaxValue | app.py:20 | `max()` skips missing values: missing iff all are missing, otherwise an attained value at least every present value |
| Ticks.MaxValuePermutation | app.py:20 | `max()` gives the same result for any reordering of the records, so taking it on `df_long_sorted` equals taking it on `df_long` |
| Ticks.YTicks | app.py:20 | y ticks start at 0, step 1000, stay below `int(max) + 1000`, end at or above `int(max)`; a non-negative max lies below the top tick plus 1000 |
| Ticks.YTicksTopTick | app.py:20 | for a maximum of 50000 the ticks are 0..50000 and 51000 is not one of them |
| Ticks.XTicks | app.py:21 | x ticks start at `min_year`, step 25, stay `<= max_year`, the last `> max_year - 25`; non-empty iff `min_year <= max_year` |
| Ticks.SliderMarks | app.py:55 | each mark maps its label to itself; `str(y)` is a key iff `y` is in `[min_year, max_year]` at a multiple of 50 from `min_year`; no other keys |
| Query.KeepCounts | app.py:80-82 | boolean-mask indexing keeps each passing record as often as it occurs and drops the rest |
| Query.Filter | app.py:80-82 | every returned record is a table record with a selected country and `str(lo) <= year <= str(hi)`; every such record is returned; none is altered or duplicated |
| Query.NumericFilter | app.py:80-82 | the reference reading with years compared as integers, characterised by record counts |
| Query.FilterAgreesWithNumeric | app.py:81-82 | for year labels that are numerals (ASCII digit strings) of one width, and bounds that print at that width, the string filter equals the numeric one |
| Query.FilterMixedWidths | app.py:81-82 | with labels "9", "10" and range 9..10, the string filter returns nothing and the numeric one both records |
| Query.Selected | app.py:80-82 | for a numeral label as wide as `str(lo)` and `str(hi)`, with `lo, hi >= 0`, the mask holds exactly when the country is selected and `lo <= int(year) <= hi` |
| Query.PlaceholderSelectsNothing | app.py:80-82 | selecting only `"Select..."`, which names no country, returns no records |
| Query.RowLeTransitive | app.py:85 | the `(year, gdpPercap)` order with missing values last is transitive (with `RowLeTotal`: a total preorder) |
| Query.Insert | app.py:85 | inserting into a sorted table keeps it sorted and adds exactly that record |
| Query.SortRows | app.py:85 | the sorted table is a permutation of its input and non-decreasing by `(year, gdpPercap)` |
| Query.TwoCountryScenario | app.py:78-85 | countries A, B over 2000-2002, selecting A and 2000..2001, yields A's 2000 and 2001 records in order |
| Dashboard.Preprocess | app.py:15-21 | start-up succeeds exactly when the table has records, both extreme year labels parse and some cell is numeric; a year-bound error is raised as is, and "no numeric value" exactly when the bounds exist but every cell coerces to missing; on success the bounds are those of the melt, `df_long` is the coerced melt, `df_long_sorted` a sorted permutation of it, the y ticks are those of `max()` of `df_long`, the x ticks and slider marks those of the bounds, and every non-negative value lies under the top y tick plus 1000 |
| Dashboard.PreprocessSucceeds | app.py:15-21 | a table with records, year headers that are numerals of one width and at least one numeric cell starts up, with `min_year <= int(y) <= max_year` for every header `y` |
| Dashboard.NoNumericValueMeansAllMissing | app.py:18-20 | a missing maximum of the sorted table means every cell of the wide table coerced to missing |
| Dashboard.NumericMaxMeansNotAllMissing | app.py:18-20 | a present maximum of the coerced table means some cell of the wide table is numeric |
| Dashboard.YTicksCoverValues | app.py:19-20 | every non-negative value of the unsorted table lies under the top y tick (computed from the sorted table) plus 1000 |
| Dashboard.UpdateGraph | app.py:78-92 | a redraw plots a sorted permutation of exactly the selected records, on the start-up ticks |
| Dashboard.TicksIndependentOfSelection | app.py:92 | any two redraws, whatever the selection, use the same ticks as the start-up figure |
| Dashboard.FirstRedrawIsEmpty | app.py:43 | with the dropdown at its placeholder default, the redraw plots no records |
| Dashboard.BoundsPrintAsExtremeLabels | app.py:16-17 | for canonical labels, `str(min_year)` and `str(max_year)` bracket every label in string order |
| Dashboard.FullSelectionRedrawsInitial | app.py:56 | for year headers that are canonical numerals (digits only, no leading zero), with every country selected and the slider at `[min_year, max_year]`, a redraw plots exactly `df_long_sorted`; with a header such as `0950` the same redraw can plot nothing, because `str(950)` is `950` (`Dashboard.LeadingZeroFullRangeSelectsNothing`) |
| Dashboard.LeadingZeroFullRangeSelectsNothing | app.py:16-17 | for headers `0950` and `1000`, `int` gives bounds 950 and 1000, yet the full-range mask at app.py:80-82 compares against `str(950) == "950"` and keeps neither record |

## Left out

- Reading the CSV file and the `head()` calls (app.py:9-10, app.py:22): file I/O and display. The model starts from an in-memory wide table.
- The string-to-number rules of `pd.to_numeric`: a foreign library. Coercion takes the parser as a parameter (`parse: string -> Option<real>`), and every result holds for any parser.
- Floating point: GDP values are exact reals with `None` for NaN, and `int(...)` is truncation toward zero. NaN's position in a sort is modelled as "missing sorts last within a year".
- Labels.ParseInt: accepts only non-empty strings of the ASCII digits `0`-`9`, because the labels are column headers. Python's `int` also accepts a sign, surrounding whitespace, underscores between digits and non-ASCII decimal digits (such as full-width `２０００`); for a header of those forms the model's year bounds raise where Python's succeed.
- Query.SortRows: the order among records with equal `(year, gdpPercap)` is insertion order, and the model does not claim it matches pandas' tie order. Only sortedness and permutation are stated.
- Query.Filter: states membership and record counts but not that the filter keeps the table's relative order. Because the records are sorted afterwards, only ties could show that order.
- Dash app construction, stylesheet, HTML layout, dropdown and slider widgets, callback registration (app.py:24-77): UI framework plumbing. The dropdown default (app.py:43) and the slider's start-up value (app.py:56) appear only as arguments of lemmas.
- Plotly figure building and tick-label formatting (app.py:63-68, app.py:88-92): rendering. A `Figure` holds only the records plotted and the two tick lists.
- Server start-up (app.py:96-99): network I/O.
- Dash passing `None` or an empty list for a cleared dropdown: the callback's inputs are modelled as a list of countries and a pair of integers.

=== FILE: arith.dfy ===
/** Small facts about multiplication and division used by the index arithmetic of the pipeline. */
module Arith {

  lemma MulMonotone(x: int, y: int, p: nat)
    requires x <= y
    ensures x * p <= y * p
  {
  }

  /** Raising a factor by at least one raises the product by at least the other factor. */
  lemma MulStep(x: int, y: int, p: nat)
    requires x < y
    ensures x * p + p <= y * p
  {
    MulMonotone(x + 1, y, p);
    assert (x + 1) * p == x * p + p;
  }

  /** Index `q * n + r` with `r < n` has quotient `q` and remainder `r`. */
  lemma DivModUnique(k: int, q: nat, r: nat, n: nat)
    requires 0 <= r < n && k == q * n + r
    ensures k / n == q && k % n == r
  {
    var q', r' := k / n, k % n;
    assert k == q' * n + r';
    if q' < q {
      MulStep(q', q, n);
    } else if q < q' {
      MulStep(q, q', n);
    }
  }

  /** Every index splits into quotient and remainder by a positive divisor. */
  lemma DivModSplit(k: nat, n: nat)
    requires n > 0
    ensures k == (k / n) * n + k % n && 0 <= k % n < n && k / n >= 0
  {
  }

  /** Index `j * n + i` of a table with `n` rows per column lies before the end of column `j`. */
  lemma ColumnIndexBound(i: nat, j: nat, n: nat, cols: nat)
    requires i < n && j < cols
    ensures j * n + i < cols * n
  {
    MulMonotone(j + 1, cols, n);
    assert (j + 1) * n == j * n + n;
  }

  /** An index below `cols * n` has a quotient below `cols`. */
  lemma QuotientBelow(k: nat, n: nat, cols: nat)
    requires n > 0 && k < cols * n
    ensures k / n < cols && k % n < n
  {
    DivModSplit(k, n);
    if k / n >= cols {
      MulMonotone(cols, k / n, n);
    }
  }
}

=== FILE: bounds.dfy ===
/**
  The year bounds of the long table: `int(df_long['year'].min())` and
  `int(df_long['year'].max())`. The year column holds strings, so `min` and
  `max` use Python's string order before `int` converts the extreme labels.
*/
module Bounds {
  import opened Wrappers
  import opened Labels
  import opened Table

  /** Pairwise facts that make the head of a list its least or greatest label. */
  lemma HeadBelowAll(h: string, m: string, rest: seq<string>)
    requires forall x :: x in rest ==> LexLe(m, x)
    requires LexLe(h, m)
    ensures forall x :: x in rest ==> LexLe(h, x)
  {
    forall x | x in rest
      ensures LexLe(h, x)
    {
      LexLeTransitive(h, m, x);
    }
  }

  lemma HeadAboveAll(h: string, m: string, rest: seq<string>)
    requires forall x :: x in rest ==> LexLe(x, m)
    requires LexLe(m, h)
    ensures forall x :: x in rest ==> LexLe(x, h)
  {
    forall x | x in rest
      ensures LexLe(x, h)
    {
      LexLeTransitive(x, m, h);
    }
  }

  /** The least label under string order, as `Series.min` on strings returns it. */
  function LexMin(s: seq<string>): (m: string)
    requires |s| > 0
    ensures m in s
    ensures forall x :: x in s ==> LexLe(m, x)
  {
    LexLeReflexive(s[0]);
    if |s| == 1 then s[0]
    else
      var rest := LexMin(s[1..]);
      LexLeTotal(s[0], rest);
      if LexLe(s[0], rest) then
        HeadBelowAll(s[0], rest, s[1..]);
        assert s == [s[0]] + s[1..];
        s[0]
      else
        assert s == [s[0]] + s[1..];
        rest
  }

  /** The greatest label under string order, as `Series.max` on strings returns it. */
  function LexMax(s: seq<string>): (m: string)
    requires |s| > 0
    ensures m in s
    ensures forall x :: x in s ==> LexLe(x, m)
  {
    LexLeReflexive(s[0]);
    if |s| == 1 then s[0]
    else
      var rest := LexMax(s[1..]);
      LexLeTotal(s[0], rest);
      if LexLe(rest, s[0]) then
        HeadAboveAll(s[0], rest, s[1..]);
        assert s == [s[0]] + s[1..];
        s[0]
      else
        assert s == [s[0]] + s[1..];
        rest
  }

  /** The `year` column of a long table. */
  function YearColumn<V>(rows: seq<LongRow<V>>): (c: seq<string>)
    ensures |c| == |rows| && forall k :: 0 <= k < |rows| ==> c[k] == rows[k].year
  {
    seq(|rows|, k requires 0 <= k < |rows| => rows[k].year)
  }

  /**
    `min_year` and `max_year`. Raises when the table is empty or when an
    extreme label is not a numeral; otherwise both bounds are labels of the
    table read as integers, the smallest and largest under string order.
  */
  function YearBounds<V>(rows: seq<LongRow<V>>): (r: Result<(int, int), StartupError>)
    ensures |rows| == 0 ==> r == Err(NoRecords)
    ensures r.Err? && |rows| > 0 ==>
      r.error.YearNotInteger? && ParseInt(r.error.year).None? &&
      exists k :: 0 <= k < |rows| && rows[k].year == r.error.year
    ensures |rows| > 0 && ParseInt(LexMin(YearColumn(rows))).None? ==>
      r == Err(YearNotInteger(LexMin(YearColumn(rows))))
    ensures r.Err? && |rows| > 0 ==>
      (forall k :: 0 <= k < |rows| ==> LexLe(r.error.year, rows[k].year)) ||
      (forall k :: 0 <= k < |rows| ==> LexLe(rows[k].year, r.error.year))
    ensures r.Ok? ==>
      (exists k :: 0 <= k < |rows| && ParseInt(rows[k].year) == Some(r.value.0) &&
         forall k' :: 0 <= k' < |rows| ==> LexLe(rows[k].year, rows[k'].year)) &&
      (exists k :: 0 <= k < |rows| && ParseInt(rows[k].year) == Some(r.value.1) &&
         forall k' :: 0 <= k' < |rows| ==> LexLe(rows[k'].year, rows[k].year))
  {
    if |rows| == 0 then Err(NoRecords)
    else
      var col := YearColumn(rows);
      var lo, hi := LexMin(col), LexMax(col);
      match (ParseInt(lo), ParseInt(hi))
      case (None, _) => Err(YearNotInteger(lo))
      case (_, None) => Err(YearNotInteger(hi))
      case (Some(a), Some(b)) => Ok((a, b))
  }

  /** Record `k` carries a least year label under string order. */
  predicate LeastYear<V>(rows: seq<LongRow<V>>, k: int) {
    0 <= k < |rows| && forall k' :: 0 <= k' < |rows| ==> LexLe(rows[k].year, rows[k'].year)
  }

  /** Record `k` carries a greatest year label under string order. */
  predicate GreatestYear<V>(rows: seq<LongRow<V>>, k: int) {
    0 <= k < |rows| && forall k' :: 0 <= k' < |rows| ==> LexLe(rows[k'].year, rows[k].year)
  }

  /** A least label is the least label: string order is antisymmetric. */
  lemma LeastYearIsLexMin<V>(rows: seq<LongRow<V>>, k: int)
    requires LeastYear(rows, k)
    ensures rows[k].year == LexMin(YearColumn(rows))
  {
    var col := YearColumn(rows);
    var lo := LexMin(col);
    var k0 :| 0 <= k0 < |col| && col[k0] == lo;
    assert col[k] in col;
    LexLeAntisymmetric(rows[k].year, lo);
  }

  lemma GreatestYearIsLexMax<V>(rows: seq<LongRow<V>>, k: int)
    requires GreatestYear(rows, k)
    ensures rows[k].year == LexMax(YearColumn(rows))
  {
    var col := YearColumn(rows);
    var hi := LexMax(col);
    var k0 :| 0 <= k0 < |col| && col[k0] == hi;
    assert col[k] in col;
    LexLeAntisymmetric(rows[k].year, hi);
  }

  /**
    The bounds exist exactly when the table has records and every extreme
    label, least or greatest under string order, is a numeral.
  */
  lemma YearBoundsOkIff<V>(rows: seq<LongRow<V>>)
    ensures YearBounds(rows).Ok? <==>
      |rows| > 0 &&
      forall k :: LeastYear(rows, k) || GreatestYear(rows, k) ==> ParseInt(rows[k].year).Some?
  {
    if |rows| > 0 {
      var col := YearColumn(rows);
      var lo, hi := LexMin(col), LexMax(col);
      if YearBounds(rows).Ok? {
        forall k | LeastYear(rows, k) || GreatestYear(rows, k)
          ensures ParseInt(rows[k].year).Some?
        {
          if LeastYear(rows, k) {
            LeastYearIsLexMin(rows, k);
          } else {
            GreatestYearIsLexMax(rows, k);
          }
        }
      } else {
        var klo :| 0 <= klo < |col| && col[klo] == lo;
        var khi :| 0 <= khi < |col| && col[khi] == hi;
        assert LeastYear(rows, klo) && GreatestYear(rows, khi) by {
          forall k' | 0 <= k' < |rows|
            ensures LexLe(rows[klo].year, rows[k'].year) && LexLe(rows[k'].year, rows[khi].year)
          {
            assert col[k'] in col;
          }
        }
      }
    }
  }

  /**
    `min()` runs before `max()`: when a least label is not a numeral, the
    error names that least label, whatever the greatest one is.
  */
  lemma YearBoundsLeastFailsFirst<V>(rows: seq<LongRow<V>>, k: int)
    requires LeastYear(rows, k) && ParseInt(rows[k].year).None?
    ensures YearBounds(rows) == Err(YearNotInteger(rows[k].year))
  {
    LeastYearIsLexMin(rows, k);
  }

  /**
    When every label is a numeral of one width, the bounds exist, are
    integers of the labels, and enclose every year of the table numerically.
  */
  lemma YearBoundsEnclose<V>(rows: seq<LongRow<V>>, width: nat)
    requires |rows| > 0 && YearsUniform(rows, width)
    ensures YearBounds(rows).Ok?
    ensures forall k :: 0 <= k < |rows| ==>
      YearBounds(rows).value.0 <= Value(rows[k].year) <= YearBounds(rows).value.1
  {
    var col := YearColumn(rows);
    var lo, hi := LexMin(col), LexMax(col);
    assert lo in col && hi in col;
    var r := YearBounds(rows);
    assert r.Ok?;
    forall k | 0 <= k < |rows|
      ensures r.value.0 <= Value(rows[k].year) <= r.value.1
    {
      assert col[k] in col;
      LexLeAgreesWithValue(lo, rows[k].year);
      LexLeAgreesWithValue(rows[k].year, hi);
    }
  }

  /**
    String order is not numeric order across widths: for the labels "9" and
    "10" the bounds come out as 10 and 9.
  */
  lemma YearBoundsMixedWidths()
    ensures YearBounds([LongRow("A", "9", 0), LongRow("A", "10", 0)]) == Ok((10, 9))
  {
    var rows := [LongRow("A", "9", 0), LongRow("A", "10", 0)];
    var col := YearColumn(rows);
    assert col == ["9", "10"];
    assert LexLe("10", "9");
    assert !LexLe("9", "10");
    assert LexMin(col) == "10";
    assert LexMax(col) == "9";
    assert Value("10") == 10 by {
      assert "10"[..1] == "1";
    }
  }
}

=== FILE: dashboard.dfy ===
/**
  The dashboard's data pipeline end to end: the preprocessing block run once
  at start-up, whose sorted table the start-up figure plots, and the
  `update_graph` callback run on every change of the country dropdown or the
  year slider.
*/
module Dashboard {
  import opened Wrappers
  import opened Labels
  import opened Table
  import opened Reshape
  import opened Bounds
  import opened Ticks
  import opened Query
  import opened Arith

  /** What the preprocessing block computes once and every redraw reads. */
  datatype Config = Config(
    long: seq<LongRow<Gdp>>,          // `df_long` after coercion
    sorted: seq<LongRow<Gdp>>,        // `df_long_sorted`
    minYear: int,
    maxYear: int,
    yTicks: seq<int>,
    xTicks: seq<int>,
    marks: map<string, string>)       // the year slider's marks

  /** The data a figure is drawn from: the records plotted and the tick values of both axes. */
  datatype Figure = Figure(rows: seq<LongRow<Gdp>>, xTicks: seq<int>, yTicks: seq<int>)

  /** No cell of the wide table coerces to a number. */
  predicate AllMissing(t: WideTable, parse: string -> Option<real>)
    requires t.WellFormed()
  {
    forall i, j :: 0 <= i < |t.rows| && 0 <= j < |t.years| ==> CoerceCell(parse, t.rows[i].cells[j]).None?
  }

  /** `long` is the melted table with each cell coerced: record `k` holds row `k % |rows|`, column `k / |rows|`. */
  predicate IsCoercedMelt(t: WideTable, parse: string -> Option<real>, long: seq<LongRow<Gdp>>)
    requires t.WellFormed()
  {
    && |long| == |t.rows| * |t.years|
    && forall k :: 0 <= k < |long| ==>
         var e := Entry(t, k % |t.rows|, k / |t.rows|);
         long[k] == LongRow(e.country, e.year, CoerceCell(parse, e.value))
  }

  /** Every non-negative GDP value lies below the top y tick plus one step. */
  predicate YTicksCover(long: seq<LongRow<Gdp>>, yTicks: seq<int>) {
    forall k :: 0 <= k < |long| && long[k].value.Some? && long[k].value.value >= 0.0 ==>
      |yTicks| > 0 && long[k].value.value < (yTicks[|yTicks| - 1] + 1000) as real
  }

  /**
    The preprocessing block: melt, year bounds, coercion, sort, ticks and
    slider marks. It raises when the long table is empty, when an extreme
    year label is not a numeral, or when no GDP value is numeric.
  */
  function Preprocess(t: WideTable, parse: string -> Option<real>): (r: Result<Config, StartupError>)
    requires t.WellFormed()
    ensures |t.rows| * |t.years| == 0 ==> r == Err(NoRecords)
    ensures YearBounds(Melt(t)).Err? ==> r == Err(YearBounds(Melt(t)).error)
    ensures r == Err(NoNumericValue) <==> YearBounds(Melt(t)).Ok? && AllMissing(t, parse)
    ensures r.Ok? <==> |t.rows| * |t.years| > 0 && YearBounds(Melt(t)).Ok? && !AllMissing(t, parse)
    ensures r.Ok? ==>
      && YearBounds(Melt(t)) == Ok((r.value.minYear, r.value.maxYear))
      && r.value.xTicks == XTicks(r.value.minYear, r.value.maxYear)
      && r.value.marks == SliderMarks(r.value.minYear, r.value.maxYear)
      && MaxValue(r.value.long).Some?
      && r.value.yTicks == YTicks(MaxValue(r.value.long).value)
    ensures r.Ok? ==> IsCoercedMelt(t, parse, r.value.long)
    ensures r.Ok? ==> Sorted(r.value.sorted) && multiset(r.value.sorted) == multiset(r.value.long)
    ensures r.Ok? ==> YTicksCover(r.value.long, r.value.yTicks)
    ensures r.Ok? ==> forall i :: 0 <= i < |r.value.xTicks| ==> r.value.minYear <= r.value.xTicks[i] <= r.value.maxYear
  {
    var long := Melt(t);
    match YearBounds(long)
    case Err(e) => Err(e)
    case Ok((minYear, maxYear)) =>
      var coerced := Coerce(parse, long);
      CoerceMeltShape(t, parse);
      var sorted := SortRows(coerced);
      MaxValuePermutation(coerced, sorted);
      match MaxValue(sorted)
      case None =>
        NoNumericValueMeansAllMissing(t, parse, coerced, sorted);
        Err(NoNumericValue)
      case Some(m) =>
        YTicksCoverValues(coerced, sorted, m);
        NumericMaxMeansNotAllMissing(t, parse, coerced);
        Ok(Config(coerced, sorted, minYear, maxYear, YTicks(m), XTicks(minYear, maxYear),
                  SliderMarks(minYear, maxYear)))
  }

  lemma CoerceMeltShape(t: WideTable, parse: string -> Option<real>)
    requires t.WellFormed()
    ensures IsCoercedMelt(t, parse, Coerce(parse, Melt(t)))
  {
  }

  lemma SameMultisetSameMembers(a: seq<LongRow<Gdp>>, b: seq<LongRow<Gdp>>, x: LongRow<Gdp>)
    requires multiset(a) == multiset(b)
    ensures x in a <==> x in b
  {
    assert x in a <==> x in multiset(a);
    assert x in b <==> x in multiset(b);
  }

  lemma AllMissingAfterSort(coerced: seq<LongRow<Gdp>>, sorted: seq<LongRow<Gdp>>)
    requires multiset(sorted) == multiset(coerced) && MaxValue(sorted).None?
    ensures forall k :: 0 <= k < |coerced| ==> coerced[k].value.None?
  {
    forall k | 0 <= k < |coerced|
      ensures coerced[k].value.None?
    {
      SameMultisetSameMembers(coerced, sorted, coerced[k]);
    }
  }

  lemma NoNumericValueMeansAllMissing(t: WideTable, parse: string -> Option<real>,
                                      coerced: seq<LongRow<Gdp>>, sorted: seq<LongRow<Gdp>>)
    requires t.WellFormed() && coerced == Coerce(parse, Melt(t))
    requires multiset(sorted) == multiset(coerced) && MaxValue(sorted).None?
    ensures AllMissing(t, parse)
  {
    AllMissingAfterSort(coerced, sorted);
    forall i, j | 0 <= i < |t.rows| && 0 <= j < |t.years|
      ensures CoerceCell(parse, t.rows[i].cells[j]).None?
    {
      var k := j * |t.rows| + i;
      MeltComplete(t, i, j);
      assert 0 <= k < |coerced|;
      assert coerced[k].value.None?;
      assert coerced[k].value == CoerceCell(parse, Entry(t, i, j).value);
    }
  }

  /** Record `k` of the coerced long table is the coerced cell of row `k % |rows|`, column `k / |rows|`. */
  lemma CoercedRecordAt(t: WideTable, parse: string -> Option<real>, k: nat)
    requires t.WellFormed() && k < |t.rows| * |t.years|
    ensures k % |t.rows| < |t.rows| && k / |t.rows| < |t.years|
    ensures Coerce(parse, Melt(t))[k].value == CoerceCell(parse, t.rows[k % |t.rows|].cells[k / |t.rows|])
  {
    QuotientBelow(k, |t.rows|, |t.years|);
    assert Melt(t)[k] == Entry(t, k % |t.rows|, k / |t.rows|);
  }

  lemma NumericValueMeansNotAllMissing(t: WideTable, parse: string -> Option<real>,
                                       coerced: seq<LongRow<Gdp>>, k: nat)
    requires t.WellFormed() && coerced == Coerce(parse, Melt(t))
    requires k < |coerced| && coerced[k].value.Some?
    ensures !AllMissing(t, parse)
  {
    CoercedRecordAt(t, parse, k);
  }

  lemma NumericMaxMeansNotAllMissing(t: WideTable, parse: string -> Option<real>, coerced: seq<LongRow<Gdp>>)
    requires t.WellFormed() && coerced == Coerce(parse, Melt(t)) && MaxValue(coerced).Some?
    ensures !AllMissing(t, parse)
  {
    var k := MaxValueWitness(coerced);
    NumericValueMeansNotAllMissing(t, parse, coerced, k);
  }

  lemma YTicksCoverValues(coerced: seq<LongRow<Gdp>>, sorted: seq<LongRow<Gdp>>, m: real)
    requires multiset(sorted) == multiset(coerced) && MaxValue(sorted) == Some(m)
    ensures YTicksCover(coerced, YTicks(m))
  {
    forall k | 0 <= k < |coerced| && coerced[k].value.Some? && coerced[k].value.value >= 0.0
      ensures |YTicks(m)| > 0 && coerced[k].value.value < (YTicks(m)[|YTicks(m)| - 1] + 1000) as real
    {
      SameMultisetSameMembers(coerced, sorted, coerced[k]);
    }
  }

  /**
    `update_graph(selected_countries, selected_years)`: the selected records,
    sorted by (year, value), drawn on the start-up ticks.
  */
  function UpdateGraph(c: Config, countries: seq<string>, years: (int, int)): (f: Figure)
    ensures Sorted(f.rows)
    ensures forall x :: multiset(f.rows)[x] == if Selected(x, countries, years.0, years.1) then multiset(c.long)[x] else 0
    ensures f.xTicks == c.xTicks && f.yTicks == c.yTicks
  {
    Figure(SortRows(Filter(c.long, countries, years.0, years.1)), c.xTicks, c.yTicks)
  }

  /**
    Redraws never move the axes: any two redraws use the same ticks, the
    ones the start-up figure (the whole sorted table) was drawn with.
  */
  lemma TicksIndependentOfSelection(c: Config, countries: seq<string>, years: (int, int),
                                    countries': seq<string>, years': (int, int))
    ensures UpdateGraph(c, countries, years).xTicks == UpdateGraph(c, countries', years').xTicks == c.xTicks
    ensures UpdateGraph(c, countries, years).yTicks == UpdateGraph(c, countries', years').yTicks == c.yTicks
  {
  }

  /** On page load the dropdown holds its placeholder, so the first redraw plots nothing. */
  lemma FirstRedrawIsEmpty(c: Config)
    requires forall k :: 0 <= k < |c.long| ==> c.long[k].country != "Select..."
    ensures UpdateGraph(c, ["Select..."], (c.minYear, c.maxYear)).rows == []
  {
    PlaceholderSelectsNothing(c.long, c.minYear, c.maxYear);
  }

  /** The configuration is built from the melted table, its year bounds and its coercion. */
  lemma PreprocessParts(t: WideTable, parse: string -> Option<real>)
    requires t.WellFormed() && Preprocess(t, parse).Ok?
    ensures var c := Preprocess(t, parse).value;
      && YearBounds(Melt(t)) == Ok((c.minYear, c.maxYear))
      && c.long == Coerce(parse, Melt(t))
      && c.sorted == SortRows(c.long)
  {
  }

  /** Year headers that are numerals of one width stay so in the long table. */
  lemma MeltYearsUniform(t: WideTable, width: nat)
    requires t.WellFormed() && width > 0
    requires forall j :: 0 <= j < |t.years| ==> IsDigits(t.years[j]) && |t.years[j]| == width
    ensures YearsUniform(Melt(t), width)
  {
    var long, n := Melt(t), |t.rows|;
    forall k | 0 <= k < |long|
      ensures IsDigits(long[k].year) && |long[k].year| == width
    {
      QuotientBelow(k, n, |t.years|);
      assert long[k] == Entry(t, k % n, k / n);
    }
  }

  /**
    A table with records, year headers that are numerals of one width and
    at least one numeric cell starts up, and its slider range encloses
    every year header read as a number.
  */
  lemma PreprocessSucceeds(t: WideTable, parse: string -> Option<real>, width: nat)
    requires t.WellFormed() && |t.rows| > 0 && |t.years| > 0 && width > 0
    requires forall j :: 0 <= j < |t.years| ==> IsDigits(t.years[j]) && |t.years[j]| == width
    requires !AllMissing(t, parse)
    ensures Preprocess(t, parse).Ok?
    ensures forall j :: 0 <= j < |t.years| ==>
      Preprocess(t, parse).value.minYear <= Value(t.years[j]) <= Preprocess(t, parse).value.maxYear
  {
    var long := Melt(t);
    MulMonotone(1, |t.years|, |t.rows|);
    MeltYearsUniform(t, width);
    YearBoundsEnclose(long, width);
    var c := Preprocess(t, parse).value;
    forall j | 0 <= j < |t.years|
      ensures c.minYear <= Value(t.years[j]) <= c.maxYear
    {
      MeltComplete(t, 0, j);
    }
  }

  /** Labels as `str` prints them: `str(min_year)` and `str(max_year)` are the extreme labels themselves. */
  lemma BoundsPrintAsExtremeLabels<V>(rows: seq<LongRow<V>>)
    requires forall k :: 0 <= k < |rows| ==> IsCanonical(rows[k].year)
    requires YearBounds(rows).Ok?
    ensures var (lo, hi) := YearBounds(rows).value;
      forall k :: 0 <= k < |rows| ==> LexLe(Show(lo), rows[k].year) && LexLe(rows[k].year, Show(hi))
  {
    var (lo, hi) := YearBounds(rows).value;
    var kLo :| 0 <= kLo < |rows| && ParseInt(rows[kLo].year) == Some(lo) &&
      forall k' :: 0 <= k' < |rows| ==> LexLe(rows[kLo].year, rows[k'].year);
    var kHi :| 0 <= kHi < |rows| && ParseInt(rows[kHi].year) == Some(hi) &&
      forall k' :: 0 <= k' < |rows| ==> LexLe(rows[k'].year, rows[kHi].year);
    ShowOfValue(rows[kLo].year);
    ShowOfValue(rows[kHi].year);
  }

  lemma MeltLabelsAndCountries(t: WideTable, countries: seq<string>)
    requires t.WellFormed()
    requires forall j :: 0 <= j < |t.years| ==> IsCanonical(t.years[j])
    requires forall i :: 0 <= i < |t.rows| ==> t.rows[i].country in countries
    ensures forall k :: 0 <= k < |Melt(t)| ==> IsCanonical(Melt(t)[k].year) && Melt(t)[k].country in countries
  {
    var long, n := Melt(t), |t.rows|;
    forall k | 0 <= k < |long|
      ensures IsCanonical(long[k].year) && long[k].country in countries
    {
      assert long[k] == Entry(t, k % n, k / n);
    }
  }

  lemma FullSelectionKeepsAll(long: seq<LongRow<Cell>>, parse: string -> Option<real>, c: Config, countries: seq<string>)
    requires forall k :: 0 <= k < |long| ==> IsCanonical(long[k].year) && long[k].country in countries
    requires YearBounds(long) == Ok((c.minYear, c.maxYear))
    requires c.long == Coerce(parse, long) && c.sorted == SortRows(c.long)
    ensures UpdateGraph(c, countries, (c.minYear, c.maxYear)).rows == c.sorted
  {
    BoundsPrintAsExtremeLabels(long);
    forall k | 0 <= k < |c.long|
      ensures Selected(c.long[k], countries, c.minYear, c.maxYear)
    {
      assert c.long[k].year == long[k].year && c.long[k].country == long[k].country;
    }
    KeepAll(c.long, x => Selected(x, countries, c.minYear, c.maxYear));
  }

  /**
    Without canonical headers the full-range redraw can differ from the
    start-up figure: for headers "0950" and "1000" the bounds are 950 and
    1000, and since `str(950)` is "950", neither label passes `year >= "950"`.
  */
  lemma LeadingZeroFullRangeSelectsNothing()
    ensures var rows := [LongRow("A", "0950", Some(1.0)), LongRow("A", "1000", Some(2.0))];
      YearBounds(rows) == Ok((950, 1000)) && Filter(rows, ["A"], 950, 1000) == []
  {
    var rows := [LongRow("A", "0950", Some(1.0)), LongRow("A", "1000", Some(2.0))];
    var col := YearColumn(rows);
    assert col == ["0950", "1000"];
    assert LexLe("0950", "1000") && !LexLe("1000", "0950");
    assert LexMin(col) == "0950";
    assert LexMax(col) == "1000";
    assert Value("0950") == 950 by {
      assert "0950"[..3] == "095" && "095"[..2] == "09" && "09"[..1] == "0";
    }
    assert Value("1000") == 1000 by {
      assert "1000"[..3] == "100" && "100"[..2] == "10" && "10"[..1] == "1";
    }
    assert Show(950) == "950" by {
      assert Show(9) == "9";
      assert Show(95) == "95";
    }
    assert !LexLe("950", "0950") && !LexLe("950", "1000");
    assert rows[1..][1..] == [];
  }

  /**
    With every country selected and the slider at its start-up position, a
    redraw plots exactly the initial figure's records, provided the year
    labels are numerals as `str` prints them.
  */
  lemma FullSelectionRedrawsInitial(t: WideTable, parse: string -> Option<real>, countries: seq<string>)
    requires t.WellFormed() && Preprocess(t, parse).Ok?
    requires forall j :: 0 <= j < |t.years| ==> IsCanonical(t.years[j])
    requires forall i :: 0 <= i < |t.rows| ==> t.rows[i].country in countries
    ensures var c := Preprocess(t, parse).value;
      UpdateGraph(c, countries, (c.minYear, c.maxYear)).rows == c.sorted
  {
    PreprocessParts(t, parse);
    MeltLabelsAndCountries(t, countries);
    FullSelectionKeepsAll(Melt(t), parse, Preprocess(t, parse).value, countries);
  }
}

=== FILE: labels.dfy ===
/**
  Year labels. The dashboard's year column holds the CSV column headers, which
  are strings; the pipeline turns them into integers with Python's `int(...)`,
  turns slider integers back into strings with `str(...)`, and compares labels
  with Python's string order. This module models those three operations and
  relates string order to numeric order.
*/
module Labels {
  import opened Wrappers
  import opened Arith

  predicate IsDigit(c: char) {
    '0' <= c <= '9'
  }

  function DigitVal(c: char): nat
    requires IsDigit(c)
  {
    (c as int) - ('0' as int)
  }

  function DigitChar(d: nat): (c: char)
    requires d < 10
    ensures IsDigit(c) && DigitVal(c) == d
  {
    (('0' as int) + d) as char
  }

  predicate IsDigits(s: string) {
    forall i :: 0 <= i < |s| ==> IsDigit(s[i])
  }

  /** A decimal numeral as `str` prints a non-negative integer: no sign, no leading zero. */
  predicate IsCanonical(s: string) {
    |s| > 0 && IsDigits(s) && (|s| == 1 || s[0] != '0')
  }

  function Pow10(n: nat): (p: nat)
    ensures p >= 1
  {
    if n == 0 then 1 else 10 * Pow10(n - 1)
  }

  /** The number a digit string denotes, read as a decimal numeral. */
  function Value(s: string): nat
    requires IsDigits(s)
  {
    if |s| == 0 then 0 else 10 * Value(s[..|s| - 1]) + DigitVal(s[|s| - 1])
  }

  /**
    Python's `int(s)` on a column header `s`. Only non-empty strings of the
    ASCII digits `0`-`9` are accepted; other headers are modelled as making
    `int` raise (`None`), although Python accepts a few more forms.
  */
  function ParseInt(s: string): (r: Option<int>)
    ensures r.Some? <==> |s| > 0 && IsDigits(s)
    ensures r.Some? ==> 0 <= r.value < Pow10(|s|)
  {
    ValueBound(s);
    if |s| > 0 && IsDigits(s) then Some(Value(s)) else None
  }

  /** Python's `str(n)` on an integer: a canonical numeral, with `-` in front when negative. */
  function Show(n: int): (r: string)
    ensures n >= 0 ==> IsCanonical(r)
    ensures n < 0 ==> |r| >= 2 && r[0] == '-'
    decreases if n < 0 then 1 - n else n
  {
    if n < 0 then "-" + Show(-n)
    else if n < 10 then [DigitChar(n)]
    else Show(n / 10) + [DigitChar(n % 10)]
  }

  /** `a` and `b` agree before index `i`, where `a` has the smaller code point. */
  predicate FirstDifferenceBelow(a: string, b: string, i: int) {
    0 <= i < |a| && i < |b| && a[..i] == b[..i] && a[i] < b[i]
  }

  /**
    Python's string order `a <= b`, compared from the front: code-point
    lexicographic, a prefix (the string itself included) is not greater.
  */
  predicate LexLe(a: string, b: string) {
    if |a| == 0 then true
    else if |b| == 0 then false
    else if a[0] != b[0] then a[0] < b[0]
    else LexLe(a[1..], b[1..])
  }

  /**
    The recursive comparison is the textbook lexicographic order: `a <= b`
    exactly when `a` is a prefix of `b` or, at the first index where they
    differ, `a` has the smaller code point.
  */
  lemma {:induction false} LexLeIsLexicographic(a: string, b: string)
    ensures LexLe(a, b) <==> a <= b || exists i :: FirstDifferenceBelow(a, b, i)
  {
    if |a| > 0 && |b| > 0 {
      if a[0] != b[0] {
        DifferenceAtHead(a, b);
      } else {
        LexLeIsLexicographic(a[1..], b[1..]);
        CommonHeadShift(a, b);
      }
    }
  }

  /** When the first code points differ, they alone decide the order. */
  lemma DifferenceAtHead(a: string, b: string)
    requires |a| > 0 && |b| > 0 && a[0] != b[0]
    ensures (a <= b || exists i :: FirstDifferenceBelow(a, b, i)) <==> a[0] < b[0]
  {
    if a[0] < b[0] {
      assert FirstDifferenceBelow(a, b, 0);
    } else {
      forall i | FirstDifferenceBelow(a, b, i)
        ensures false
      {
      }
    }
  }

  /** A common first code point drops out of both the prefix test and the first difference. */
  lemma CommonHeadShift(a: string, b: string)
    requires |a| > 0 && |b| > 0 && a[0] == b[0]
    ensures a <= b <==> a[1..] <= b[1..]
    ensures (exists i :: FirstDifferenceBelow(a, b, i)) <==> exists i :: FirstDifferenceBelow(a[1..], b[1..], i)
  {
    assert a == [a[0]] + a[1..] && b == [b[0]] + b[1..];
    if i :| FirstDifferenceBelow(a, b, i) {
      assert i > 0;
      assert a[1..][..i - 1] == a[..i][1..] && b[1..][..i - 1] == b[..i][1..];
      assert FirstDifferenceBelow(a[1..], b[1..], i - 1);
    }
    if i :| FirstDifferenceBelow(a[1..], b[1..], i) {
      assert a[..i + 1] == [a[0]] + a[1..][..i] && b[..i + 1] == [b[0]] + b[1..][..i];
      assert FirstDifferenceBelow(a, b, i + 1);
    }
  }

  // ---------------------------------------------------------------------------
  // String order is a total order

  lemma {:induction false} LexLeReflexive(a: string)
    ensures LexLe(a, a)
  {
    if |a| > 0 {
      LexLeReflexive(a[1..]);
    }
  }

  lemma {:induction false} LexLeTotal(a: string, b: string)
    ensures LexLe(a, b) || LexLe(b, a)
  {
    if |a| > 0 && |b| > 0 && a[0] == b[0] {
      LexLeTotal(a[1..], b[1..]);
    }
  }

  lemma {:induction false} LexLeAntisymmetric(a: string, b: string)
    requires LexLe(a, b) && LexLe(b, a)
    ensures a == b
  {
    if |a| > 0 && |b| > 0 {
      LexLeAntisymmetric(a[1..], b[1..]);
      assert a == [a[0]] + a[1..];
      assert b == [b[0]] + b[1..];
    }
  }

  lemma {:induction false} LexLeTransitive(a: string, b: string, c: string)
    requires LexLe(a, b) && LexLe(b, c)
    ensures LexLe(a, c)
  {
    if |a| > 0 && |b| > 0 && |c| > 0 && a[0] == b[0] && b[0] == c[0] {
      LexLeTransitive(a[1..], b[1..], c[1..]);
    }
  }

  // ---------------------------------------------------------------------------
  // Decimal numerals

  lemma {:induction false} ValueBound(s: string)
    ensures IsDigits(s) ==> Value(s) < Pow10(|s|)
  {
    if |s| > 0 && IsDigits(s) {
      ValueBound(s[..|s| - 1]);
    }
  }

  /** Reading a numeral from its first digit: the leading digit weighs `10^(|s|-1)`. */
  lemma {:induction false} ValueFront(s: string)
    requires IsDigits(s) && |s| > 0
    ensures Value(s) == DigitVal(s[0]) * Pow10(|s| - 1) + Value(s[1..])
  {
    if |s| > 1 {
      var init := s[..|s| - 1];
      ValueFront(init);
      assert init[1..] == s[1..][..|s| - 2];
      var d, p, v, e := DigitVal(s[0]), Pow10(|s| - 2), Value(init[1..]), DigitVal(s[|s| - 1]);
      assert Value(init) == d * p + v;
      assert Value(s[1..]) == 10 * v + e;
      assert Pow10(|s| - 1) == 10 * p;
      Distribute(d, p, v, e);
    }
  }

  lemma Distribute(d: int, p: int, v: int, e: int)
    ensures 10 * (d * p + v) + e == d * (10 * p) + (10 * v + e)
  {
  }

  /** A smaller leading digit decides the comparison whatever the remaining digits are. */
  lemma LeadingDigitDecides(da: nat, db: nat, p: nat, ra: nat, rb: nat)
    requires da < db && ra < p
    ensures da * p + ra < db * p + rb
  {
    MulMonotone(da + 1, db, p);
    assert (da + 1) * p == da * p + p;
  }

  lemma AppendDigit(q: nat, d: nat)
    requires d < 10
    ensures (10 * q + d) / 10 == q && (10 * q + d) % 10 == d
  {
  }

  /**
    For digit strings of the same length (four-digit years, say), Python's
    string order agrees with numeric order on the numbers they denote.
  */
  lemma {:induction false} LexLeAgreesWithValue(a: string, b: string)
    requires IsDigits(a) && IsDigits(b) && |a| == |b|
    ensures LexLe(a, b) <==> Value(a) <= Value(b)
  {
    if |a| > 0 {
      ValueFront(a);
      ValueFront(b);
      ValueBound(a[1..]);
      ValueBound(b[1..]);
      var p := Pow10(|a| - 1);
      var da, db := DigitVal(a[0]), DigitVal(b[0]);
      if da < db {
        LeadingDigitDecides(da, db, p, Value(a[1..]), Value(b[1..]));
      } else if db < da {
        LeadingDigitDecides(db, da, p, Value(b[1..]), Value(a[1..]));
      } else {
        assert a[0] == b[0];
        LexLeAgreesWithValue(a[1..], b[1..]);
      }
    }
  }

  // ---------------------------------------------------------------------------
  // `int` and `str` are inverse on canonical numerals

  lemma {:induction false} ValueOfShow(n: nat)
    ensures Value(Show(n)) == n
  {
    if n >= 10 {
      var s := Show(n);
      ValueOfShow(n / 10);
      assert s[..|s| - 1] == Show(n / 10);
    }
  }

  lemma {:induction false} ValueOfCanonicalAtLeast(s: string)
    requires IsCanonical(s) && |s| >= 2
    ensures Value(s) >= 10
  {
    ValueFront(s);
    MulMonotone(1, DigitVal(s[0]), Pow10(|s| - 1));
    assert Pow10(|s| - 1) >= 10;
  }

  lemma {:induction false} ShowOfValue(s: string)
    requires IsCanonical(s)
    ensures Show(Value(s)) == s
  {
    if |s| >= 2 {
      var init := s[..|s| - 1];
      assert IsCanonical(init) by {
        assert init[0] == s[0];
      }
      ValueOfCanonicalAtLeast(s);
      ShowOfValue(init);
      AppendDigit(Value(init), DigitVal(s[|s| - 1]));
      assert s == init + [s[|s| - 1]];
    }
  }

  /** Parsing the printed form of a non-negative integer gives the integer back. */
  lemma ParseIntOfShow(n: nat)
    ensures ParseInt(Show(n)) == Some(n)
  {
    ValueOfShow(n);
  }

  lemma ShowNonNegativeInjective(a: nat, b: nat)
    requires Show(a) == Show(b)
    ensures a == b
  {
    ValueOfShow(a);
    ValueOfShow(b);
  }

  lemma ShowSignSeparates(a: int, b: int)
    requires a < 0 <= b
    ensures Show(a) != Show(b)
  {
    assert Show(a)[0] == '-';
    assert IsDigit(Show(b)[0]);
  }

  /** Distinct integers print differently, so slider marks keyed by `str(year)` never collide. */
  lemma ShowInjective(a: int, b: int)
    requires Show(a) == Show(b)
    ensures a == b
  {
    if a >= 0 && b >= 0 {
      ShowNonNegativeInjective(a, b);
    } else if a < 0 && b < 0 {
      var sa, sb := Show(-a), Show(-b);
      assert Show(a) == "-" + sa && Show(b) == "-" + sb;
      assert sa == Show(a)[1..] && sb == Show(b)[1..];
      ShowNonNegativeInjective(-a, -b);
    } else if a < 0 {
      ShowSignSeparates(a, b);
    } else {
      ShowSignSeparates(b, a);
    }
  }

  /**
    The filter's year test, `label >= str(lo)`, is numeric `int(label) >= lo`
    whenever the label and `str(lo)` have the same number of digits.
  */
  lemma ShowLeAgreesWithValue(n: nat, lab: string)
    requires IsDigits(lab) && |Show(n)| == |lab|
    ensures LexLe(Show(n), lab) <==> n <= Value(lab)
    ensures LexLe(lab, Show(n)) <==> Value(lab) <= n
  {
    ValueOfShow(n);
    LexLeAgreesWithValue(Show(n), lab);
    LexLeAgreesWithValue(lab, Show(n));
  }
}

=== FILE: query.dfy ===
/**
  The filter and sort of `update_graph`: keep the long-table records whose
  country is selected and whose year label lies between `str(lo)` and
  `str(hi)` under string order, then sort by (year, gdpPercap).
*/
module Query {
  import opened Wrappers
  import opened Labels
  import opened Table

  // ---------------------------------------------------------------------------
  // Filtering

  /** The records of `rows` that satisfy `p`, in their original order (boolean-mask indexing). */
  function Keep<V>(rows: seq<V>, p: V -> bool): seq<V> {
    if |rows| == 0 then []
    else if p(rows[0]) then [rows[0]] + Keep(rows[1..], p)
    else Keep(rows[1..], p)
  }

  /** A masked table holds each record as often as the table does when it passes the mask, and never otherwise. */
  lemma {:induction false} KeepCounts<V(!new)>(rows: seq<V>, p: V -> bool)
    ensures forall x :: multiset(Keep(rows, p))[x] == if p(x) then multiset(rows)[x] else 0
  {
    if |rows| > 0 {
      KeepCounts(rows[1..], p);
      assert rows == [rows[0]] + rows[1..];
    }
  }

  /** Two masks that agree on every record of the table select the same records. */
  lemma {:induction false} KeepCongruent<V(!new)>(rows: seq<V>, p: V -> bool, q: V -> bool)
    requires forall k :: 0 <= k < |rows| ==> p(rows[k]) == q(rows[k])
    ensures Keep(rows, p) == Keep(rows, q)
  {
    if |rows| > 0 {
      KeepCongruent(rows[1..], p, q);
    }
  }

  /** A mask every record passes keeps the table as it is. */
  lemma {:induction false} KeepAll<V(!new)>(rows: seq<V>, p: V -> bool)
    requires forall k :: 0 <= k < |rows| ==> p(rows[k])
    ensures Keep(rows, p) == rows
  {
    if |rows| > 0 {
      KeepAll(rows[1..], p);
      assert rows == [rows[0]] + rows[1..];
    }
  }

  /**
    The mask of `update_graph`: `isin(selected_countries)` and the two string
    comparisons on `year`. For a numeral label as wide as both printed bounds
    the string comparisons are the numeric range test.
  */
  function Selected(row: LongRow<Gdp>, countries: seq<string>, lo: int, hi: int): (r: bool)
    ensures lo >= 0 && hi >= 0 && IsDigits(row.year) && |Show(lo)| == |row.year| == |Show(hi)| ==>
      (r <==> row.country in countries && lo <= Value(row.year) <= hi)
  {
    var inRange := LexLe(Show(lo), row.year) && LexLe(row.year, Show(hi));
    assert lo >= 0 && hi >= 0 && IsDigits(row.year) && |Show(lo)| == |row.year| == |Show(hi)| ==>
      (inRange <==> lo <= Value(row.year) <= hi) by {
      if lo >= 0 && hi >= 0 && IsDigits(row.year) && |Show(lo)| == |row.year| == |Show(hi)| {
        ShowLeAgreesWithValue(lo, row.year);
        ShowLeAgreesWithValue(hi, row.year);
      }
    }
    row.country in countries && inRange
  }

  /**
    `df_long[isin(countries) & (year >= str(lo)) & (year <= str(hi))]`. Every
    record returned passes the mask, every record of the table that passes it
    is returned, and records are neither altered, duplicated nor invented.
  */
  function Filter(rows: seq<LongRow<Gdp>>, countries: seq<string>, lo: int, hi: int): (r: seq<LongRow<Gdp>>)
    ensures forall x :: x in r ==> x in rows && Selected(x, countries, lo, hi)
    ensures forall x :: x in rows && Selected(x, countries, lo, hi) ==> x in r
    ensures forall x :: multiset(r)[x] == if Selected(x, countries, lo, hi) then multiset(rows)[x] else 0
  {
    var r := Keep(rows, x => Selected(x, countries, lo, hi));
    KeepCounts(rows, x => Selected(x, countries, lo, hi));
    assert forall x :: x in r ==> multiset(r)[x] > 0;
    assert forall x :: x in rows ==> multiset(rows)[x] > 0;
    r
  }

  /** The reading of the range test that compares years as numbers. */
  predicate SelectedNumerically(row: LongRow<Gdp>, countries: seq<string>, lo: int, hi: int) {
    row.country in countries && IsDigits(row.year) && lo <= Value(row.year) <= hi
  }

  /** The reference filter: the same selection with the year range compared numerically. */
  function NumericFilter(rows: seq<LongRow<Gdp>>, countries: seq<string>, lo: int, hi: int): (r: seq<LongRow<Gdp>>)
    ensures forall x :: multiset(r)[x] == if SelectedNumerically(x, countries, lo, hi) then multiset(rows)[x] else 0
  {
    KeepCounts(rows, x => SelectedNumerically(x, countries, lo, hi));
    Keep(rows, x => SelectedNumerically(x, countries, lo, hi))
  }

  /**
    When every year label is a numeral of one width and the slider bounds
    print with that width (four-digit years), the string comparisons select
    exactly the years a numeric comparison would.
  */
  lemma FilterAgreesWithNumeric(rows: seq<LongRow<Gdp>>, countries: seq<string>, lo: nat, hi: nat, width: nat)
    requires YearsUniform(rows, width) && |Show(lo)| == width && |Show(hi)| == width
    ensures Filter(rows, countries, lo, hi) == NumericFilter(rows, countries, lo, hi)
  {
    forall k | 0 <= k < |rows|
      ensures Selected(rows[k], countries, lo, hi) == SelectedNumerically(rows[k], countries, lo, hi)
    {
      ShowLeAgreesWithValue(lo, rows[k].year);
      ShowLeAgreesWithValue(hi, rows[k].year);
    }
    KeepCongruent(rows, x => Selected(x, countries, lo, hi), x => SelectedNumerically(x, countries, lo, hi));
  }

  /**
    Across widths the two readings part: with years "9" and "10" and the
    range 9..10, the string comparisons select nothing, the numeric ones both.
  */
  lemma FilterMixedWidths()
    ensures var rows := [LongRow("A", "9", Some(1.0)), LongRow("A", "10", Some(2.0))];
      Filter(rows, ["A"], 9, 10) == [] && NumericFilter(rows, ["A"], 9, 10) == rows
  {
    var rows := [LongRow("A", "9", Some(1.0)), LongRow("A", "10", Some(2.0))];
    assert Show(9) == "9";
    assert Show(10) == "10";
    assert !LexLe("9", "10");
    assert Value("10") == 10 by {
      assert "10"[..1] == "1";
    }
    assert rows[1..][1..] == [];
  }

  /** The dropdown's default value names no country of the table, so the default redraw is empty. */
  lemma PlaceholderSelectsNothing(rows: seq<LongRow<Gdp>>, lo: int, hi: int)
    requires forall k :: 0 <= k < |rows| ==> rows[k].country != "Select..."
    ensures Filter(rows, ["Select..."], lo, hi) == []
  {
  }

  // ---------------------------------------------------------------------------
  // Sorting by (year, gdpPercap)

  /** Order on GDP values with missing values after every number. */
  predicate GdpLe(a: Gdp, b: Gdp) {
    match (a, b)
    case (Some(x), Some(y)) => x <= y
    case (Some(_), None) => true
    case (None, Some(_)) => false
    case (None, None) => true
  }

  /** `sort_values(by=['year', 'gdpPercap'])`: year label in string order first, then value. */
  predicate RowLe(a: LongRow<Gdp>, b: LongRow<Gdp>) {
    (LexLe(a.year, b.year) && a.year != b.year) || (a.year == b.year && GdpLe(a.value, b.value))
  }

  lemma RowLeTotal(a: LongRow<Gdp>, b: LongRow<Gdp>)
    ensures RowLe(a, b) || RowLe(b, a)
  {
    LexLeTotal(a.year, b.year);
  }

  lemma RowLeTransitive(a: LongRow<Gdp>, b: LongRow<Gdp>, c: LongRow<Gdp>)
    requires RowLe(a, b) && RowLe(b, c)
    ensures RowLe(a, c)
  {
    if a.year != b.year && b.year != c.year {
      LexLeTransitive(a.year, b.year, c.year);
      if a.year == c.year {
        LexLeAntisymmetric(a.year, b.year);
      }
    }
  }

  predicate Sorted(s: seq<LongRow<Gdp>>) {
    forall i, j :: 0 <= i < j < |s| ==> RowLe(s[i], s[j])
  }

  /** A record below `x` and below every record of `s` is below every record of a permutation of `s` plus `x`. */
  lemma HeadBelowPermutation(h: LongRow<Gdp>, x: LongRow<Gdp>, s: seq<LongRow<Gdp>>, rest: seq<LongRow<Gdp>>)
    requires RowLe(h, x)
    requires forall j :: 0 <= j < |s| ==> RowLe(h, s[j])
    requires multiset(rest) == multiset(s) + multiset{x}
    ensures forall j :: 0 <= j < |rest| ==> RowLe(h, rest[j])
  {
    forall j | 0 <= j < |rest|
      ensures RowLe(h, rest[j])
    {
      assert rest[j] in multiset(rest);
      if rest[j] != x {
        assert rest[j] in multiset(s);
        var k :| 0 <= k < |s| && s[k] == rest[j];
      }
    }
  }

  /** Inserts one record into a sorted table, after the records it is not below. */
  function Insert(x: LongRow<Gdp>, s: seq<LongRow<Gdp>>): (r: seq<LongRow<Gdp>>)
    requires Sorted(s)
    ensures Sorted(r)
    ensures multiset(r) == multiset(s) + multiset{x}
  {
    if |s| == 0 then [x]
    else if RowLe(x, s[0]) then
      assert forall j :: 0 <= j < |s| ==> RowLe(x, s[j]) by {
        forall j | 0 <= j < |s|
          ensures RowLe(x, s[j])
        {
          if j > 0 {
            RowLeTransitive(x, s[0], s[j]);
          }
        }
      }
      [x] + s
    else
      RowLeTotal(x, s[0]);
      var rest := Insert(x, s[1..]);
      assert s == [s[0]] + s[1..];
      HeadBelowPermutation(s[0], x, s[1..], rest);
      [s[0]] + rest
  }

  /**
    The sorted table: a permutation of its input, non-decreasing by year
    label and then by value, with missing values last within a year.
  */
  function SortRows(s: seq<LongRow<Gdp>>): (r: seq<LongRow<Gdp>>)
    ensures Sorted(r)
    ensures multiset(r) == multiset(s)
  {
    if |s| == 0 then []
    else
      assert s == [s[0]] + s[1..];
      Insert(s[0], SortRows(s[1..]))
  }

  lemma ShowYears()
    ensures Show(2000) == "2000" && Show(2001) == "2001"
  {
    assert Show(2) == "2";
    assert Show(20) == "20";
    assert Show(200) == "200";
  }

  /** Keep on a table given as its first record and the rest. */
  lemma KeepCons<V(!new)>(x: V, rest: seq<V>, p: V -> bool)
    ensures Keep([x] + rest, p) == if p(x) then [x] + Keep(rest, p) else Keep(rest, p)
  {
    assert ([x] + rest)[1..] == rest;
  }

  lemma KeepScenario(p: LongRow<Gdp> -> bool, a0: LongRow<Gdp>, b0: LongRow<Gdp>, a1: LongRow<Gdp>,
                      b1: LongRow<Gdp>, a2: LongRow<Gdp>, b2: LongRow<Gdp>)
    requires p(a0) && !p(b0) && p(a1) && !p(b1) && !p(a2) && !p(b2)
    ensures Keep([a0, b0, a1, b1, a2, b2], p) == [a0, a1]
  {
    KeepCons(b2, [], p);
    assert [b2] == [b2] + [];
    KeepCons(a2, [b2], p);
    KeepCons(b1, [a2, b2], p);
    KeepCons(a1, [b1, a2, b2], p);
    KeepCons(b0, [a1, b1, a2, b2], p);
    KeepCons(a0, [b0, a1, b1, a2, b2], p);
  }

  /**
    Two countries over three years: selecting country A and the years 2000
    to 2001 yields A's first two records, in year order.
  */
  lemma TwoCountryScenario()
    ensures var long := [
        LongRow("A", "2000", Some(100.0)), LongRow("B", "2000", Some(150.0)),
        LongRow("A", "2001", Some(200.0)), LongRow("B", "2001", Some(250.0)),
        LongRow("A", "2002", Some(300.0)), LongRow("B", "2002", Some(50000.0))];
      SortRows(Filter(long, ["A"], 2000, 2001)) ==
        [LongRow("A", "2000", Some(100.0)), LongRow("A", "2001", Some(200.0))]
  {
    var a0, b0 := LongRow("A", "2000", Some(100.0)), LongRow("B", "2000", Some(150.0));
    var a1, b1 := LongRow("A", "2001", Some(200.0)), LongRow("B", "2001", Some(250.0));
    var a2, b2 := LongRow("A", "2002", Some(300.0)), LongRow("B", "2002", Some(50000.0));
    ShowYears();
    assert LexLe("2000", "2001") && !LexLe("2002", "2001") && LexLe("2001", "2001") && LexLe("2000", "2000");
    KeepScenario(x => Selected(x, ["A"], 2000, 2001), a0, b0, a1, b1, a2, b2);
    assert RowLe(a0, a1);
    assert SortRows([a1]) == [a1];
  }
}

=== FILE: reshape.dfy ===
/**
  The wide-to-long reshape (`pd.melt` with `country` as identifier column)
  and the numeric coercion of the value column (`pd.to_numeric` with
  `errors='coerce'`).
*/
module Reshape {
  import opened Wrappers
  import opened Table
  import opened Arith

  /** The long record for row `i` and year column `j` of the wide table. */
  function Entry(t: WideTable, i: nat, j: nat): LongRow<Cell>
    requires t.WellFormed() && i < |t.rows| && j < |t.years|
  {
    LongRow(t.rows[i].country, t.years[j], t.rows[i].cells[j])
  }

  /**
    The first `m` year columns melted: `melt` stacks the columns, so record
    `k` comes from row `k % |rows|` and column `k / |rows|`.
  */
  function MeltColumns(t: WideTable, m: nat): (r: seq<LongRow<Cell>>)
    requires t.WellFormed() && m <= |t.years|
    ensures |r| == m * |t.rows|
    ensures forall k :: 0 <= k < |r| ==> r[k] == Entry(t, k % |t.rows|, k / |t.rows|)
  {
    if m == 0 then []
    else
      var n := |t.rows|;
      var prev := MeltColumns(t, m - 1);
      var column := seq(n, i requires 0 <= i < n => Entry(t, i, m - 1));
      assert |prev + column| == m * n by {
        assert (m - 1) * n + n == m * n;
      }
      assert forall k :: (m - 1) * n <= k < m * n ==> k / n == m - 1 && k % n == k - (m - 1) * n by {
        forall k | (m - 1) * n <= k < m * n
          ensures k / n == m - 1 && k % n == k - (m - 1) * n
        {
          DivModUnique(k, m - 1, k - (m - 1) * n, n);
        }
      }
      prev + column
  }

  /** `pd.melt(df, id_vars=['country'], var_name='year', value_name='gdpPercap')`. */
  function Melt(t: WideTable): (r: seq<LongRow<Cell>>)
    requires t.WellFormed()
    ensures |r| == |t.rows| * |t.years|
    ensures forall k :: 0 <= k < |r| ==> r[k] == Entry(t, k % |t.rows|, k / |t.rows|)
  {
    MeltColumns(t, |t.years|)
  }

  /** Every cell of the wide table reaches the long table, unchanged: row `i`, year column `j` is record `j * |rows| + i`. */
  lemma MeltComplete(t: WideTable, i: nat, j: nat)
    requires t.WellFormed() && i < |t.rows| && j < |t.years|
    ensures 0 <= j * |t.rows| + i < |Melt(t)| && Melt(t)[j * |t.rows| + i] == Entry(t, i, j)
  {
    var n, k := |t.rows|, j * |t.rows| + i;
    ColumnIndexBound(i, j, n, |t.years|);
    DivModUnique(k, j, i, n);
    assert Melt(t)[k] == Entry(t, k % n, k / n);
  }

  /** Distinct keys on both axes: a (country, year) pair names one row and one column. */
  lemma EntryKeyUnique(t: WideTable, i: nat, j: nat, i': nat, j': nat)
    requires t.WellFormed() && t.CountriesDistinct() && t.YearsDistinct()
    requires i < |t.rows| && i' < |t.rows| && j < |t.years| && j' < |t.years|
    requires Entry(t, i, j).country == Entry(t, i', j').country && Entry(t, i, j).year == Entry(t, i', j').year
    ensures i == i' && j == j'
  {
  }

  lemma MeltPairUniqueAt(t: WideTable, k: nat, k': nat)
    requires t.WellFormed() && t.CountriesDistinct() && t.YearsDistinct()
    requires k < |Melt(t)| && k' < |Melt(t)|
    requires Melt(t)[k].country == Melt(t)[k'].country && Melt(t)[k].year == Melt(t)[k'].year
    ensures k == k'
  {
    var n := |t.rows|;
    QuotientBelow(k, n, |t.years|);
    QuotientBelow(k', n, |t.years|);
    DivModSplit(k, n);
    DivModSplit(k', n);
    assert Melt(t)[k] == Entry(t, k % n, k / n);
    assert Melt(t)[k'] == Entry(t, k' % n, k' / n);
    EntryKeyUnique(t, k % n, k / n, k' % n, k' / n);
  }

  /** With distinct countries and headers, no (country, year) pair occurs twice in the long table. */
  lemma MeltPairsUnique(t: WideTable)
    requires t.WellFormed() && t.CountriesDistinct() && t.YearsDistinct()
    ensures forall k, k' :: 0 <= k < |Melt(t)| && 0 <= k' < |Melt(t)| ==>
      (Melt(t)[k].country == Melt(t)[k'].country && Melt(t)[k].year == Melt(t)[k'].year ==> k == k')
  {
    forall k, k' | 0 <= k < |Melt(t)| && 0 <= k' < |Melt(t)| &&
      Melt(t)[k].country == Melt(t)[k'].country && Melt(t)[k].year == Melt(t)[k'].year
      ensures k == k'
    {
      MeltPairUniqueAt(t, k, k');
    }
  }

  /** `to_numeric(..., errors='coerce')` on one cell: numbers stay, text is parsed, blanks are missing. */
  function CoerceCell(parse: string -> Option<real>, c: Cell): (r: Gdp)
    ensures c.Num? ==> r == Some(c.x)
    ensures c.Blank? ==> r == None
    ensures r.Some? <==> c.Num? || (c.Text? && parse(c.s).Some?)
    ensures c.Text? && r.Some? ==> r == parse(c.s)
  {
    match c
    case Num(x) => Some(x)
    case Text(s) => parse(s)
    case Blank => None
  }

  /** A coerced value written back as a cell, as when the column is coerced a second time. */
  function AsCell(v: Gdp): Cell {
    match v
    case Some(x) => Num(x)
    case None => Blank
  }

  /**
    Coercion of the `gdpPercap` column. It never fails, keeps the table's
    length and every record's country and year, and replaces each value by a
    number or the missing marker.
  */
  function Coerce(parse: string -> Option<real>, rows: seq<LongRow<Cell>>): (r: seq<LongRow<Gdp>>)
    ensures |r| == |rows|
    ensures forall k :: 0 <= k < |r| ==>
      r[k].country == rows[k].country && r[k].year == rows[k].year &&
      r[k].value == CoerceCell(parse, rows[k].value)
  {
    seq(|rows|, k requires 0 <= k < |rows| =>
      LongRow(rows[k].country, rows[k].year, CoerceCell(parse, rows[k].value)))
  }

  /** Writes a coerced table back as cells, record by record. */
  function AsCells(rows: seq<LongRow<Gdp>>): (r: seq<LongRow<Cell>>)
    ensures |r| == |rows|
    ensures forall k :: 0 <= k < |r| ==>
      r[k].country == rows[k].country && r[k].year == rows[k].year && r[k].value == AsCell(rows[k].value)
  {
    seq(|rows|, k requires 0 <= k < |rows| => LongRow(rows[k].country, rows[k].year, AsCell(rows[k].value)))
  }

  /** Coercion is idempotent: coercing already-coerced values changes nothing, whatever the parser. */
  lemma CoerceIdempotent(parse: string -> Option<real>, rows: seq<LongRow<Cell>>)
    ensures Coerce(parse, AsCells(Coerce(parse, rows))) == Coerce(parse, rows)
  {
    var once := Coerce(parse, rows);
    var twice := Coerce(parse, AsCells(once));
    forall k | 0 <= k < |once|
      ensures twice[k] == once[k]
    {
      match once[k].value
      case Some(x) =>
      case None =>
    }
  }
}

=== FILE: table.dfy ===
/**
  The two shapes of the GDP-per-capita table: the wide table read from the
  CSV file (one row per country, one column per year) and the long table the
  dashboard plots (one record per country and year).
*/
module Table {
  import opened Wrappers
  import opened Labels

  /** A cell as the CSV reader hands it over: a number, text such as "12.3k", or empty. */
  datatype Cell = Num(x: real) | Text(s: string) | Blank

  /** One country's row of the wide table: the `country` cell and one cell per year column. */
  datatype WideRow = WideRow(country: string, cells: seq<Cell>)

  /** The wide table: the year-column headers in file order, and the rows. */
  datatype WideTable = WideTable(years: seq<string>, rows: seq<WideRow>) {

    /** Every row has exactly one cell under each year header. */
    predicate WellFormed() {
      forall i :: 0 <= i < |rows| ==> |rows[i].cells| == |years|
    }

    /** The `country` column is a key, as it is in the dataset. */
    predicate CountriesDistinct() {
      forall i, i' :: 0 <= i < i' < |rows| ==> rows[i].country != rows[i'].country
    }

    /** Column headers are distinct; the CSV reader renames repeated headers. */
    predicate YearsDistinct() {
      forall j, j' :: 0 <= j < j' < |years| ==> years[j] != years[j']
    }
  }

  /** One record of the long table; `V` is the raw `Cell` before coercion and `Gdp` after. */
  datatype LongRow<V> = LongRow(country: string, year: string, value: V)

  /** A coerced GDP-per-capita value; `None` is the missing marker (NaN). */
  type Gdp = Option<real>

  /** Every year label is a digit string of the same width (four-digit years in the dataset). */
  predicate YearsUniform<V>(rows: seq<LongRow<V>>, width: nat) {
    width > 0 && forall k :: 0 <= k < |rows| ==> IsDigits(rows[k].year) && |rows[k].year| == width
  }

  /** The errors the preprocessing block can raise at start-up. */
  datatype StartupError =
    | NoRecords                        // `min()`/`max()` of an empty column is NaN, and `int(NaN)` raises
    | YearNotInteger(year: string)     // `int(...)` of a year label that is not a numeral raises
    | NoNumericValue                   // every GDP value is missing, so `int(max)` raises
}

=== FILE: ticks.dfy ===
/**
  Axis ticks and slider marks. Each is a Python `range` computed once from the
  full long table: y ticks every 1000 from 0 up to the truncated maximum GDP
  value, x ticks every 25 years and slider marks every 50 years from
  `min_year` to `max_year`.
*/
module Ticks {
  import opened Wrappers
  import opened Labels
  import opened Table
  import opened Arith

  /** Python's `range(start, stop, step)` for a positive step, as a list. */
  function Range(start: int, stop: int, step: nat): (r: seq<int>)
    requires step > 0
    ensures |r| == 0 <==> start >= stop
    ensures forall i :: 0 <= i < |r| ==> r[i] == start + i * step
    ensures forall i :: 0 <= i < |r| ==> r[i] < stop
    ensures |r| > 0 ==> r[|r| - 1] >= stop - step
    decreases stop - start
  {
    if start >= stop then []
    else
      var rest := Range(start + step, stop, step);
      assert forall i :: 1 <= i < |rest| + 1 ==> start + step + (i - 1) * step == start + i * step;
      [start] + rest
  }

  lemma RangeMemberIsStep(start: int, stop: int, step: nat, i: nat)
    requires step > 0 && i < |Range(start, stop, step)|
    ensures var y := Range(start, stop, step)[i]; start <= y < stop && (y - start) % step == 0
  {
    MulMonotone(0, i, step);
    DivModUnique(i * step, i, 0, step);
  }

  lemma RangeIndexInBounds(start: int, stop: int, step: nat, i: nat)
    requires step > 0 && start + i * step < stop
    ensures i < |Range(start, stop, step)|
  {
    var r := Range(start, stop, step);
    if i >= |r| {
      if |r| == 0 {
        MulMonotone(0, i, step);
      } else {
        assert (|r| - 1) * step + step == |r| * step;
        MulMonotone(|r|, i, step);
      }
    }
  }

  lemma RangeHasEveryStep(start: int, stop: int, step: nat, y: int)
    requires step > 0 && start <= y < stop && (y - start) % step == 0
    ensures y in Range(start, stop, step)
  {
    var i := (y - start) / step;
    assert y - start == i * step;
    RangeIndexInBounds(start, stop, step, i);
    assert Range(start, stop, step)[i] == y;
  }

  /** A value is in the range exactly when it lies in `[start, stop)` and is a whole number of steps from `start`. */
  lemma RangeMembership(start: int, stop: int, step: nat, y: int)
    requires step > 0
    ensures y in Range(start, stop, step) <==> start <= y < stop && (y - start) % step == 0
  {
    var r := Range(start, stop, step);
    if y in r {
      var i :| 0 <= i < |r| && r[i] == y;
      RangeMemberIsStep(start, stop, step, i);
    } else if start <= y < stop && (y - start) % step == 0 {
      RangeHasEveryStep(start, stop, step, y);
    }
  }

  /** Python's `int(x)` on a float: truncation toward zero. */
  function Trunc(x: real): (n: int)
    ensures x >= 0.0 ==> n as real <= x < n as real + 1.0
    ensures x < 0.0 ==> n as real - 1.0 < x <= n as real
  {
    if x >= 0.0 then x.Floor else -((-x).Floor)
  }

  /** `Series.max()` with NaN skipped: the largest present value, or missing when none is present. */
  function MaxValue(rows: seq<LongRow<Gdp>>): (m: Gdp)
    ensures m.None? <==> forall k :: 0 <= k < |rows| ==> rows[k].value.None?
    ensures m.Some? ==> exists k :: 0 <= k < |rows| && rows[k].value == m
    ensures m.Some? ==> forall k :: 0 <= k < |rows| && rows[k].value.Some? ==> rows[k].value.value <= m.value
  {
    if |rows| == 0 then None
    else
      var rest := MaxValue(rows[1..]);
      assert forall k :: 1 <= k < |rows| ==> rows[k] == rows[1..][k - 1];
      match (rows[0].value, rest)
      case (None, _) => rest
      case (Some(x), None) => Some(x)
      case (Some(x), Some(y)) => if x >= y then Some(x) else Some(y)
  }

  /** A record of `a` with a numeric value is bounded by the maximum of any reordering `b` of `a`. */
  lemma MaxValueBoundedAcross(a: seq<LongRow<Gdp>>, b: seq<LongRow<Gdp>>, k: nat)
    requires multiset(a) == multiset(b) && k < |a| && a[k].value.Some?
    ensures MaxValue(b).Some? && a[k].value.value <= MaxValue(b).value
  {
    assert a[k] in multiset(b);
    var k' :| 0 <= k' < |b| && b[k'] == a[k];
  }

  /** The index of a record that holds the maximum. */
  lemma MaxValueWitness(rows: seq<LongRow<Gdp>>) returns (k: nat)
    requires MaxValue(rows).Some?
    ensures k < |rows| && rows[k].value == MaxValue(rows)
  {
    k :| 0 <= k < |rows| && rows[k].value == MaxValue(rows);
  }

  /** `Series.max` does not depend on the order of the records. */
  lemma MaxValuePermutation(a: seq<LongRow<Gdp>>, b: seq<LongRow<Gdp>>)
    requires multiset(a) == multiset(b)
    ensures MaxValue(a) == MaxValue(b)
  {
    if MaxValue(a).Some? {
      var ka :| 0 <= ka < |a| && a[ka].value == MaxValue(a);
      MaxValueBoundedAcross(a, b, ka);
      var kb :| 0 <= kb < |b| && b[kb].value == MaxValue(b);
      MaxValueBoundedAcross(b, a, kb);
    } else if MaxValue(b).Some? {
      var kb :| 0 <= kb < |b| && b[kb].value == MaxValue(b);
      MaxValueBoundedAcross(b, a, kb);
    }
  }

  /** `range(0, int(max) + 1000, 1000)`: the y ticks. */
  function YTicks(maxValue: real): (r: seq<int>)
    ensures |r| > 0 <==> Trunc(maxValue) > -1000
    ensures forall i :: 0 <= i < |r| ==> r[i] == 1000 * i
    ensures forall i :: 0 <= i < |r| ==> r[i] < Trunc(maxValue) + 1000
    ensures |r| > 0 ==> r[|r| - 1] >= Trunc(maxValue)
    ensures maxValue >= 0.0 ==> |r| > 0 && maxValue < (r[|r| - 1] + 1000) as real
  {
    Range(0, Trunc(maxValue) + 1000, 1000)
  }

  /** `range(min_year, max_year + 1, 25)`: the x ticks. */
  function XTicks(minYear: int, maxYear: int): (r: seq<int>)
    ensures |r| > 0 <==> minYear <= maxYear
    ensures forall i :: 0 <= i < |r| ==> r[i] == minYear + 25 * i
    ensures forall i :: 0 <= i < |r| ==> r[i] <= maxYear
    ensures |r| > 0 ==> r[|r| - 1] > maxYear - 25
  {
    Range(minYear, maxYear + 1, 25)
  }

  /** A mark keyed `str(year)` for each year of the 50-year range. */
  function MarksOf(years: seq<int>): (m: map<string, string>)
    ensures forall k :: k in m ==> m[k] == k
  {
    map y | y in years :: Show(y) := Show(y)
  }

  lemma MarksOfRange(minYear: int, maxYear: int, y: int)
    ensures Show(y) in MarksOf(Range(minYear, maxYear + 1, 50)) <==>
      minYear <= y <= maxYear && (y - minYear) % 50 == 0
  {
    var years := Range(minYear, maxYear + 1, 50);
    RangeMembership(minYear, maxYear + 1, 50, y);
    if Show(y) in MarksOf(years) {
      var y' :| y' in years && Show(y') == Show(y);
      ShowInjective(y', y);
    }
  }

  /** `k` is `str(y)` for some year `y` between the bounds. */
  predicate NamesYearBetween(k: string, minYear: int, maxYear: int) {
    exists y :: minYear <= y <= maxYear && Show(y) == k
  }

  lemma MarksOfRangeKeys(minYear: int, maxYear: int, m: map<string, string>)
    requires m == MarksOf(Range(minYear, maxYear + 1, 50))
    ensures forall k :: k in m ==> NamesYearBetween(k, minYear, maxYear)
  {
    forall k | k in m
      ensures NamesYearBetween(k, minYear, maxYear)
    {
      var y :| y in Range(minYear, maxYear + 1, 50) && k == Show(y);
      RangeMembership(minYear, maxYear + 1, 50, y);
    }
  }

  /**
    The slider marks `{str(year): str(year) for year in range(min_year, max_year + 1, 50)}`:
    each key is its own label, and a year has a mark exactly when it lies
    between the bounds a whole number of 50-year steps after `min_year`.
  */
  function SliderMarks(minYear: int, maxYear: int): (m: map<string, string>)
    ensures forall k :: k in m ==> m[k] == k
    ensures forall y :: Show(y) in m <==> minYear <= y <= maxYear && (y - minYear) % 50 == 0
    ensures forall k :: k in m ==> NamesYearBetween(k, minYear, maxYear)
  {
    var m := MarksOf(Range(minYear, maxYear + 1, 50));
    assert forall y :: Show(y) in m <==> minYear <= y <= maxYear && (y - minYear) % 50 == 0 by {
      forall y {
        MarksOfRange(minYear, maxYear, y);
      }
    }
    MarksOfRangeKeys(minYear, maxYear, m);
    m
  }

  /**
    The exclusive stop of `range` and the truncating `int`: for a largest
    value of 50000 the top y tick is 50000, and 51000 is not a tick.
  */
  lemma YTicksTopTick()
    ensures |YTicks(50000.0)| == 51 && YTicks(50000.0)[50] == 50000 && 51000 !in YTicks(50000.0)
  {
    var r := YTicks(50000.0);
    assert Trunc(50000.0) == 50000;
  }
}

=== FILE: wrappers.dfy ===
/** Failure-carrying wrappers shared by the pipeline modules. */
module Wrappers {

  /** A value that may be absent: a missing cell, an empty aggregate. */
  datatype Option<+T> = None | Some(value: T)

  /** The outcome of a step that can raise: either a value or the error raised. */
  datatype Result<+T, +E> = Ok(value: T) | Err(error: E)
}
